=== FILE: README.md ===
# Skillex — a verified model of the skill-exchange core

Skillex is a single-page Streamlit app (`streamlit_app.py`). Users log in or
register. They then search a shared directory for teachers of a skill, for
learners of a skill, or for a "double coincidence": someone who teaches what
you want to learn and wants to learn what you teach. They can also upvote
each other, at most once per target and never themselves.

This Dafny project models the logic inside that script:

- `text.dfy` (`Text`): the input cleaning the forms apply. This is Python's
  `str.strip()` over the `isspace()` characters, `str.split(",")`, the
  "split, strip, drop empty pieces" comma lists, and ASCII `str.lower()`.
- `records.dfy` (`Records`): the user record. It also models the
  `skills_have` dict, which is built by a dict comprehension. The dict is an
  insertion-ordered table with distinct keys.
- `ledger.dfy` (`Ledger`): `handle_upvote` as a pure transition on the
  directory and the vote ledger (voter id to the set of upvoted ids). The
  ledger invariant ties each record's `upvotes` counter to its voters.
- `directory.dfy` (`Directory`): the login lookup and the registration
  branch, as pure decisions.
- `matching.dfy` (`Matching`): the three search loops as methods with loop
  invariants. Each is proved against a specification function or predicate.
- `session.dfy` (`App`): the session state as a class. Its fields are the
  directory, the ledger, the logged-in user and the login/search step. Its
  methods are the login form, the register form, the three search boxes and
  the upvote button.

Whether a query matches a skill name (`fuzz.partial_ratio(q, name) >= 70`) is
decided by an external library. Here it is a parameter `similar`, and every
property holds whatever it answers.

## Model

| member | source | states |
|---|---|---|
| Text.Strip | streamlit_app.py:131-132 | `s.strip()` is the infix of `s` after its leading whitespace, with only whitespace after it. It neither starts nor ends with whitespace, and it is empty exactly when `s` is all whitespace. |
| Text.StripStripped | streamlit_app.py:159 | Stripping a string that has no whitespace at either end leaves it unchanged. |
| Text.Split | streamlit_app.py:159 | `s.split(sep)` gives at least one piece, no piece contains `sep`, and joining the pieces with `sep` gives back `s`. |
| Text.SplitJoin | streamlit_app.py:159 | Splitting undoes joining when no piece contains the separator. |
| Text.StripNonEmpty | streamlit_app.py:159 | `[p.strip() for p in parts if p.strip()]` has no more items than `parts`, and every item is non-empty and stripped. |
| Text.StripNonEmptyKeepsOut | streamlit_app.py:159 | Stripping and dropping empty pieces never brings in a character that no piece had. |
| Text.CommaList | streamlit_app.py:159 | Every item of a parsed comma list is non-empty, stripped and comma-free. |
| Text.CommaListJoin | streamlit_app.py:159 | Round trip: for any list of non-empty, stripped, comma-free items (the empty list included, so an empty field parses to no items), parsing `",".join(items)` gives back `items`. |
| Text.StripNonEmptyClean | streamlit_app.py:159 | Already clean items pass through the comma-list filter unchanged. |
| Text.LowerChar | streamlit_app.py:189 | ASCII lowering of one character: an ASCII capital maps to its small letter, 32 code points up, and every other character is kept. |
| Text.Lower | streamlit_app.py:196 | ASCII lowering of `s.lower()`: the length is kept, each character is lowered in place, and no ASCII capital is left. |
| Text.Normalize | streamlit_app.py:189 | A search box's `strip().lower()` has no ASCII capital. It is empty (and the search skipped) exactly when the box holds only whitespace. |
| Records.Keys | streamlit_app.py:164 | The keys of a table, position by position. |
| Records.KeyIndex | streamlit_app.py:195 | Where a key sits in a table: the first position holding it. |
| Records.Put | streamlit_app.py:164 | `d[k] = v` keeps keys distinct. An existing key keeps its place and a new key goes last. The entry for `k` takes `v` and every other value is unchanged. |
| Records.PutHas | streamlit_app.py:164 | After `d[k] = v` the dict holds `k` with value `v`. |
| Records.PutKeeps | streamlit_app.py:164 | `d[k] = v` keeps every entry whose key is not `k`. |
| Records.FirstOccurrences | streamlit_app.py:164 | The keys in first-occurrence order are pairwise distinct and have exactly the members of the input. |
| Records.FromPairs | streamlit_app.py:164 | The dict comprehension over `zip(skills, credits)` has distinct keys: the skills in order of first occurrence. |
| Records.FromPairsLastWins | streamlit_app.py:164 | A skill named more than once is priced by its last occurrence. |
| Ledger.IsId | streamlit_app.py:156 | The `any(...)` test of the register form: some record of the directory has this id. |
| Ledger.Upvote | streamlit_app.py:111-124 | A self-vote changes nothing and reports the warning. A repeat vote changes nothing, not even an empty set for the voter, and reports the info. Otherwise only the target's counter rises by one and only the voter's set gains the target id, the set being created if absent. Each outcome holds exactly in its own case. |
| Ledger.VotersAfterAccept | streamlit_app.py:122-124 | After an accepted vote, the voter joins the target's voters, and every other id's voters are unchanged. |
| Ledger.UpvoteKeepsIds | streamlit_app.py:111-124 | An upvote keeps the ids unique. |
| Ledger.UpvoteKeepsNoSelf | streamlit_app.py:111-115 | An upvote never puts a voter in their own set. |
| Ledger.UpvoteKeepsCounts | streamlit_app.py:117-124 | After an upvote, every counter still equals the number of voters whose set holds that id. |
| Ledger.UpvoteKeepsTargets | streamlit_app.py:122-124 | After an upvote, every upvoted id still names a record. |
| Ledger.UpvoteKeepsConsistent | streamlit_app.py:111-124 | Every upvote preserves the ledger invariant: unique ids, counters equal to voter counts, no self-votes, and only known ids voted for. |
| Ledger.UpvoteTwice | streamlit_app.py:112 | Voting twice for the same target: the second call is refused and changes nothing. The counter rises by one in total if the first call was accepted, and by zero otherwise. |
| Ledger.Replay | streamlit_app.py:111-124 | Any sequence of upvotes keeps the directory's length and ids, and never lowers a counter. |
| Ledger.ReplayKeepsConsistent | streamlit_app.py:111-124 | Any sequence of upvotes from a consistent state keeps every counter equal to its number of distinct voters, with no self-votes. |
| Ledger.FreshBoardConsistent | streamlit_app.py:100-102 | Zeroed counters with an empty ledger satisfy the invariant. |
| Directory.Credentials | streamlit_app.py:135 | The generator's condition: the record's id and password both equal the inputs exactly. |
| Directory.FindLogin | streamlit_app.py:135 | The login lookup finds the first record with exactly these id and password. `None` means that no record has them. |
| Directory.NewUser | streamlit_app.py:155-176 | An already-taken stripped id is refused, and only then. Otherwise a skills/credits count mismatch is refused, and only then. A built record has the stripped id, which is fresh, 100 credits, 0 upvotes, distinct skill keys, and the parsed skills as its keys in first-occurrence order. Its skill table is the dict comprehension over the parsed skills and credits (so each skill is priced by its last paired credit), and its wanted skills and contacts are the parsed comma lists. Its name, password, about and degree are the stripped form fields. |
| Directory.RegisterKeepsConsistent | streamlit_app.py:177 | Appending a record with a fresh id and a zero counter keeps the ledger invariant. |
| Directory.RegisterTwiceRejected | streamlit_app.py:156-157 | Once an id is registered, registering the same stripped id again is refused as taken. |
| Matching.FindTeachers | streamlit_app.py:190-197 | The teacher loop yields nothing for an empty query. Otherwise it yields exactly the specification list `TeacherRows` over the whole directory. |
| Matching.SkillRowsMembers | streamlit_app.py:195-197 | A user's rows are exactly that user's matching skills, each with its own price. |
| Matching.TeacherRowsSound | streamlit_app.py:191-197 | Every listed row is a matching skill, at its own price, of a user who is not the searcher. |
| Matching.TeacherRowsComplete | streamlit_app.py:191-197 | Every matching skill of every user who is not the searcher is listed. |
| Matching.SkillRowsOrder | streamlit_app.py:195 | A user's rows follow the order of that user's skill table, strictly, so no skill appears twice. |
| Matching.TeacherRowsUsers | streamlit_app.py:192 | Every row belongs to one of the users walked so far. |
| Matching.AppendInOrder | streamlit_app.py:192-197 | Appending a later user's ordered rows to earlier users' ordered rows keeps the list ordered. |
| Matching.TeacherRowsOrder | streamlit_app.py:191-197 | The teacher list is in directory order, then skill-table order, so no (user, skill) pair is listed twice. |
| Matching.Wants | streamlit_app.py:225 | The `any(...)` of the learner search: some wanted skill, lowered, matches the query. |
| Matching.Teaches | streamlit_app.py:256-259 | The first `any(...)` of the double-coincidence search: some key of the skill table, lowered, matches the query. |
| Matching.Partner | streamlit_app.py:254-260 | Who the double-coincidence search lists: not the searcher, both queries non-empty, and both independent `any(...)` tests hold. |
| Matching.FindLearners | streamlit_app.py:220-226 | A user is listed exactly when the query is non-empty, the user is not the searcher, and some wanted skill matches. Users appear in directory order, once each. |
| Matching.FindDoubleCoincidences | streamlit_app.py:251-265 | A user is listed exactly when both queries are non-empty, the user is not the searcher, some skill taught matches the learn query, and some (independent) wanted skill matches the teach query. Users appear in directory order, once each, and `found` holds exactly when someone is listed. |
| App.Session.constructor | streamlit_app.py:8-108 | A new session holds the seed directory with an empty ledger, nobody logged in, on the login step, and satisfies the session invariant. |
| App.Session.Login | streamlit_app.py:131-141 | Both inputs are stripped. On a match, the first matching record becomes the current user and the step moves to search. Otherwise nothing changes. The directory and ledger are untouched. |
| App.Session.SignIn | streamlit_app.py:135-139 | The lookup step of the login form on stripped credentials. |
| App.Session.Register | streamlit_app.py:155-180 | A refused form changes nothing and reports why. An accepted one appends exactly the record `NewUser` builds after the unchanged earlier records, logs it in and moves to search. The invariant is kept. |
| App.Session.Enter | streamlit_app.py:177-180 | Appending a fresh record logs it in, moves to search and keeps the invariant. |
| App.Session.SearchTeachers | streamlit_app.py:189-197 | The teacher box normalises its text and lists the specification rows. No row is the logged-in user's own. |
| App.Session.SearchLearners | streamlit_app.py:219-226 | The learner box lists, in directory order and as positions in the directory, exactly the users other than the logged-in one who want a skill matching the normalised text. |
| App.Session.SearchDouble | streamlit_app.py:251-265 | The double-coincidence button lists, in directory order and as positions in the directory, exactly the users other than the logged-in one who qualify under both normalised texts. |
| App.Session.Upvote | streamlit_app.py:111-125 | The session's directory and ledger move exactly as `Ledger.Upvote` says. The invariant is kept, and the step and logged-in user stay. |

## Left out

- The Streamlit rendering and widgets are not modelled: titles, forms, buttons, profile blocks, `st.error` / `st.warning` / `st.info` texts. The messages of `handle_upvote` appear only as the `Outcome` value, and the register form's error messages as `RegisterError`.
- `fuzz.partial_ratio` and its threshold 70 are foreign code. They are the parameter `similar`, applied to the query and the lowered name.
- Text.LowerChar, Text.Lower: ASCII lowering only. Python's `str.lower()` also lowers non-ASCII letters (and can lengthen a string, as for `'İ'`); that Unicode table is not modelled. The search properties hold whatever `similar` answers, so they do not depend on it.
- `int(c.strip())` on the credits field is not modelled. The form carries the credits already parsed, one integer per non-empty piece, and the `ValueError` for non-numeric input is left out.
- The seven seed records (their names, skills, credits and passwords) are not reproduced. `App.Session.constructor` accepts any seed that, like the real one, has distinct ids, zero counters and well-formed skill tables.
- Session plumbing is represented by the class fields rather than modelled as such: `st.session_state` initialisation, the rerun assignments and the `show_double` flag that reveals the double-coincidence list.
- `current_user` is held as a position in the directory rather than as a reference to the shared dict; the record it names is read from the directory.
- `App.Session.Upvote` takes the voter id as a parameter, as `handle_upvote` does. The app always passes the logged-in user's id, and that call site is not modelled separately.
- Password handling (plain-text storage and comparison) is taken as is. The unused `uuid` import is not modelled.

=== FILE: directory.dfy ===
/** The login lookup and the registration form's checks and new record:
    the pure decisions the login/register step takes before it changes the
    session. */
module Directory {
  import opened Wrappers
  import opened Text
  import opened Records
  import opened Ledger

  /** Record `u` carries exactly these credentials. */
  predicate Credentials(u: User, id: string, password: string) {
    u.id == id && u.password == password
  }

  /** `next((u for u in users if u["id"] == id and u.get("password") == password), None)`:
      the first record with exactly these credentials, if there is one. */
  function FindLogin(users: seq<User>, id: string, password: string): (r: Option<nat>)
    ensures r.Some? ==> r.value < |users| && Credentials(users[r.value], id, password)
    ensures r.Some? ==> forall j | 0 <= j < r.value :: !Credentials(users[j], id, password)
    ensures r.None? ==> forall j | 0 <= j < |users| :: !Credentials(users[j], id, password)
  {
    if users == [] then None
    else if Credentials(users[0], id, password) then Some(0)
    else
      match FindLogin(users[1..], id, password)
      case None => None
      case Some(i) => Some(i + 1)
  }

  /** The two ways the register form is refused. */
  datatype RegisterError = IdTaken | CountMismatch

  /** The register form as submitted. The credits field is taken already
      parsed to integers, one per non-empty comma-separated piece. */
  datatype Form = Form(
    id: string,
    name: string,
    skillsHave: string,
    credits: seq<int>,
    skillsWant: string,
    about: string,
    degree: string,
    contact: string,
    password: string)

  /** The register branch: refuse a trimmed id that is already taken, then
      refuse a skills/credits count mismatch, else build the new record. */
  function NewUser(users: seq<User>, f: Form): (r: Result<User, RegisterError>)
    ensures r == Err(IdTaken) <==> IsId(users, Strip(f.id))
    ensures r == Err(CountMismatch) <==>
              !IsId(users, Strip(f.id)) && |CommaList(f.skillsHave)| != |f.credits|
    ensures r.Ok? ==>
              && r.value.id == Strip(f.id) && !IsId(users, r.value.id)
              && r.value.credits == StartingCredits && r.value.upvotes == 0
              && WellFormed(r.value)
              && Keys(r.value.skillsHave) == FirstOccurrences(CommaList(f.skillsHave))
    ensures r.Ok? ==>
              && r.value.skillsHave == FromPairs(CommaList(f.skillsHave), f.credits)
              && r.value.skillsWant == CommaList(f.skillsWant)
              && r.value.contact == CommaList(f.contact)
    ensures r.Ok? ==>
              && r.value.name == Strip(f.name) && r.value.password == Strip(f.password)
              && r.value.about == Strip(f.about) && r.value.degree == Strip(f.degree)
  {
    var id := Strip(f.id);
    if IsId(users, id) then Err(IdTaken)
    else
      var skills := CommaList(f.skillsHave);
      if |skills| != |f.credits| then Err(CountMismatch)
      else
        Ok(User(
          id := id,
          password := Strip(f.password),
          name := Strip(f.name),
          skillsHave := FromPairs(skills, f.credits),
          skillsWant := CommaList(f.skillsWant),
          credits := StartingCredits,
          about := Strip(f.about),
          degree := Strip(f.degree),
          contact := CommaList(f.contact),
          upvotes := 0))
  }

  /** Appending a newly registered record (a new id, a zero counter, as
      `NewUser` builds it) keeps the ledger invariant: no voter has upvoted
      an id that was not in the directory, so the zero counter is right. */
  lemma {:induction false} RegisterKeepsConsistent(b: Board, u: User)
    requires Consistent(b)
    requires !IsId(b.users, u.id) && u.upvotes == 0
    ensures Consistent(Board(b.users + [u], b.votes))
  {
    var users := b.users + [u];
    assert Voters(b.votes, u.id) == {};
    forall v, x | v in b.votes && x in b.votes[v] ensures IsId(users, x) {
      assert IsId(b.users, x);
      var i :| 0 <= i < |b.users| && b.users[i].id == x;
      assert users[i].id == x;
    }
    forall i, j | 0 <= i < j < |users| ensures users[i].id != users[j].id {
      if j == |b.users| {
        assert users[i] == b.users[i];
      }
    }
  }

  /** Once a form is accepted (a fresh stripped id, as many credits as
      skills), registering the same stripped id again is refused. */
  lemma RegisterTwiceRejected(users: seq<User>, f: Form, g: Form)
    requires !IsId(users, Strip(f.id)) && |CommaList(f.skillsHave)| == |f.credits|
    requires Strip(g.id) == Strip(f.id)
    ensures NewUser(users + [NewUser(users, f).value], g) == Err(IdTaken)
  {
    var users' := users + [NewUser(users, f).value];
    assert users'[|users|].id == Strip(g.id);
  }
}

=== FILE: ledger.dfy ===
/** The vote ledger and `handle_upvote`: a voter may upvote another user at
    most once, never themselves, and each accepted vote bumps the target
    record's `upvotes` counter. */
module Ledger {
  import opened Records

  /** `st.session_state.votes`: voter id to the ids that voter has upvoted. */
  type Votes = map<string, set<string>>

  /** The state an upvote reads and changes: the directory and the ledger. */
  datatype Board = Board(users: seq<User>, votes: Votes)

  /** What `handle_upvote` reports: the warning, the info message, or success. */
  datatype Outcome = SelfVote | AlreadyVoted | Accepted

  /** The ids `voter` has upvoted so far (none if the voter has no entry yet). */
  function Ballot(votes: Votes, voter: string): set<string> {
    if voter in votes then votes[voter] else {}
  }

  /** The voters whose set holds `target`. */
  function Voters(votes: Votes, target: string): set<string> {
    set v | v in votes && target in votes[v]
  }

  /** Some record of the directory has id `x`. */
  predicate IsId(users: seq<User>, x: string) {
    exists i | 0 <= i < |users| :: users[i].id == x
  }

  /** The ledger invariant: ids are unique, every counter equals the number
      of voters who upvoted that record, nobody has upvoted themselves, and
      every upvoted id belongs to the directory. */
  predicate Consistent(b: Board) {
    && DistinctIds(b.users)
    && (forall i | 0 <= i < |b.users| :: b.users[i].upvotes == |Voters(b.votes, b.users[i].id)|)
    && (forall v | v in b.votes :: v !in b.votes[v])
    && (forall v, x | v in b.votes && x in b.votes[v] :: IsId(b.users, x))
  }

  /** `handle_upvote(voter, users[t])`. A self-vote and a repeated vote change
      nothing at all (in particular no empty set is left behind for the
      voter); an accepted vote adds one to the target's counter and records
      the target in the voter's set, creating the set if needed. */
  function Upvote(b: Board, voter: string, t: nat): (r: (Board, Outcome))
    requires t < |b.users|
    ensures |r.0.users| == |b.users|
    ensures forall i | 0 <= i < |b.users| && i != t :: r.0.users[i] == b.users[i]
    ensures r.0.users[t] == b.users[t].(upvotes := r.0.users[t].upvotes)
    ensures r.1 == SelfVote <==> voter == b.users[t].id
    ensures r.1 == AlreadyVoted <==> voter != b.users[t].id && b.users[t].id in Ballot(b.votes, voter)
    ensures r.1 != Accepted ==> r.0 == b
    ensures r.1 == Accepted ==>
              && r.0.users[t].upvotes == b.users[t].upvotes + 1
              && r.0.votes == b.votes[voter := Ballot(b.votes, voter) + {b.users[t].id}]
  {
    var target := b.users[t];
    if voter == target.id then (b, SelfVote)
    else
      var votes := if voter in b.votes then b.votes else b.votes[voter := {}];
      if target.id in votes[voter] then (Board(b.users, votes), AlreadyVoted)
      else
        var users := b.users[t := target.(upvotes := target.upvotes + 1)];
        (Board(users, votes[voter := votes[voter] + {target.id}]), Accepted)
  }

  /** After an accepted vote the voter is a new voter for the target and
      nothing changes for any other id. */
  lemma VotersAfterAccept(b: Board, voter: string, t: nat, x: string)
    requires t < |b.users|
    requires Upvote(b, voter, t).1 == Accepted
    ensures var votes' := Upvote(b, voter, t).0.votes;
            Voters(votes', x) == if x == b.users[t].id then Voters(b.votes, x) + {voter} else Voters(b.votes, x)
  {
  }

  /** Every upvote keeps the ledger invariant. */
  lemma {:induction false} UpvoteKeepsConsistent(b: Board, voter: string, t: nat)
    requires t < |b.users|
    requires Consistent(b)
    ensures Consistent(Upvote(b, voter, t).0)
  {
    UpvoteKeepsIds(b, voter, t);
    UpvoteKeepsCounts(b, voter, t);
    UpvoteKeepsNoSelf(b, voter, t);
    UpvoteKeepsTargets(b, voter, t);
  }

  /** An upvote leaves every id where it was, so ids stay unique. */
  lemma {:induction false} UpvoteKeepsIds(b: Board, voter: string, t: nat)
    requires t < |b.users|
    requires DistinctIds(b.users)
    ensures DistinctIds(Upvote(b, voter, t).0.users)
  {
    var b' := Upvote(b, voter, t).0;
    assert forall i | 0 <= i < |b.users| :: b'.users[i].id == b.users[i].id;
  }

  /** An upvote never puts a voter in their own set. */
  lemma {:induction false} UpvoteKeepsNoSelf(b: Board, voter: string, t: nat)
    requires t < |b.users|
    requires forall v | v in b.votes :: v !in b.votes[v]
    ensures var b' := Upvote(b, voter, t).0;
            forall v | v in b'.votes :: v !in b'.votes[v]
  {
    var (b', o) := Upvote(b, voter, t);
    if o == Accepted {
      forall v | v in b'.votes ensures v !in b'.votes[v] {
        if v == voter {
          assert b'.votes[v] == Ballot(b.votes, voter) + {b.users[t].id};
        }
      }
    }
  }

  /** After an upvote every counter still equals its number of voters. */
  lemma {:induction false} UpvoteKeepsCounts(b: Board, voter: string, t: nat)
    requires t < |b.users|
    requires Consistent(b)
    ensures var b' := Upvote(b, voter, t).0;
            forall i | 0 <= i < |b'.users| :: b'.users[i].upvotes == |Voters(b'.votes, b'.users[i].id)|
  {
    var (b', o) := Upvote(b, voter, t);
    if o == Accepted {
      forall i | 0 <= i < |b.users|
        ensures b'.users[i].upvotes == |Voters(b'.votes, b'.users[i].id)|
      {
        VotersAfterAccept(b, voter, t, b.users[i].id);
        if i == t {
          assert voter !in Voters(b.votes, b.users[t].id);
        }
      }
    }
  }

  /** After an upvote every upvoted id still names a record. */
  lemma {:induction false} UpvoteKeepsTargets(b: Board, voter: string, t: nat)
    requires t < |b.users|
    requires Consistent(b)
    ensures var b' := Upvote(b, voter, t).0;
            forall v, x | v in b'.votes && x in b'.votes[v] :: IsId(b'.users, x)
  {
    var (b', o) := Upvote(b, voter, t);
    if o == Accepted {
      forall v, x | v in b'.votes && x in b'.votes[v] ensures IsId(b'.users, x) {
        if v == voter && x == b.users[t].id {
          assert b'.users[t].id == x;
        } else {
          assert v in b.votes && x in b.votes[v];
          assert IsId(b.users, x);
          var i :| 0 <= i < |b.users| && b.users[i].id == x;
          assert b'.users[i].id == x;
        }
      }
    }
  }

  /** Voting twice for the same target counts once: the second call is
      refused and changes nothing, so the counter rises by at most one in
      total, and by exactly one when the first call was accepted. */
  lemma {:induction false} UpvoteTwice(b: Board, voter: string, t: nat)
    requires t < |b.users|
    ensures var (b1, o1) := Upvote(b, voter, t);
            var (b2, o2) := Upvote(b1, voter, t);
            && o2 != Accepted
            && b2 == b1
            && b2.users[t].upvotes == b.users[t].upvotes + (if o1 == Accepted then 1 else 0)
  {
    var (b1, o1) := Upvote(b, voter, t);
    if o1 == Accepted {
      assert b1.users[t].id == b.users[t].id;
      assert b.users[t].id in Ballot(b1.votes, voter);
    }
  }

  /** The state after the upvotes `calls` (voter, target index) in order. */
  function Replay(b: Board, calls: seq<(string, nat)>): (r: Board)
    requires forall k | 0 <= k < |calls| :: calls[k].1 < |b.users|
    ensures |r.users| == |b.users|
    ensures forall i | 0 <= i < |b.users| :: r.users[i].id == b.users[i].id
    ensures forall i | 0 <= i < |b.users| :: r.users[i].upvotes >= b.users[i].upvotes
    decreases |calls|
  {
    if calls == [] then b
    else Replay(Upvote(b, calls[0].0, calls[0].1).0, calls[1..])
  }

  /** From any consistent board, any sequence of upvotes leaves every
      counter equal to the number of distinct voters for that record, and no
      voter's set holding the voter's own id; the fresh board of a new
      session is one such board (`FreshBoardConsistent`). */
  lemma {:induction false} ReplayKeepsConsistent(b: Board, calls: seq<(string, nat)>)
    requires forall k | 0 <= k < |calls| :: calls[k].1 < |b.users|
    requires Consistent(b)
    ensures Consistent(Replay(b, calls))
    decreases |calls|
  {
    if calls != [] {
      UpvoteKeepsConsistent(b, calls[0].0, calls[0].1);
      ReplayKeepsConsistent(Upvote(b, calls[0].0, calls[0].1).0, calls[1..]);
    }
  }

  /** A fresh session satisfies the invariant: seed counters are zero and
      the ledger starts empty. */
  lemma FreshBoardConsistent(users: seq<User>)
    requires DistinctIds(users)
    requires forall i | 0 <= i < |users| :: users[i].upvotes == 0
    ensures Consistent(Board(users, map[]))
  {
    forall i | 0 <= i < |users| ensures Voters(map[], users[i].id) == {} { }
  }
}

=== FILE: matching.dfy ===
/** The three searches of the search step: teachers for a skill, learners for
    a skill, and "double coincidence" users who qualify for both at once.
    Each walks the directory in order and skips the searching user by id.

    Whether a query matches a skill name is `fuzz.partial_ratio(query,
    name.lower()) >= 70`, computed by an external library; here it is the
    parameter `similar`, applied to the query and the lowered name, and the
    properties proved hold whatever it answers. */
module Matching {
  import opened Text
  import opened Records

  /** The similarity test `partial_ratio(query, text) >= 70`. */
  type Similar = (string, string) -> bool

  /** One line of the teacher list: the teacher (by position in the
      directory), the skill taught and its price. */
  datatype Row = Row(user: nat, skill: string, credit: int)

  /** Positions listed in strictly increasing order: directory order, each once. */
  predicate Increasing(s: seq<nat>) {
    forall a, b | 0 <= a < b < |s| :: s[a] < s[b]
  }

  // ---------------- Teachers ----------------

  /** The rows that the first `m` entries of user `i`'s skill table contribute. */
  function SkillRows(i: nat, have: SkillTable, m: nat, q: string, similar: Similar): seq<Row>
    requires m <= |have|
  {
    if m == 0 then []
    else
      SkillRows(i, have, m - 1, q, similar)
      + (if similar(q, Lower(have[m - 1].0)) then [Row(i, have[m - 1].0, have[m - 1].1)] else [])
  }

  /** The teacher list after the first `n` users of the directory. */
  function TeacherRows(users: seq<User>, me: string, q: string, similar: Similar, n: nat): seq<Row>
    requires n <= |users|
  {
    if n == 0 then []
    else
      var have := users[n - 1].skillsHave;
      TeacherRows(users, me, q, similar, n - 1)
      + (if users[n - 1].id == me then [] else SkillRows(n - 1, have, |have|, q, similar))
  }

  /** The "find teachers" search: one row per (user, skill) pair whose
      lowered skill name the query matches, skipping the searching user
      `me`; nothing is listed for an empty query. */
  method FindTeachers(users: seq<User>, me: string, q: string, similar: Similar) returns (teachers: seq<Row>)
    ensures teachers == if q == "" then [] else TeacherRows(users, me, q, similar, |users|)
  {
    teachers := [];
    if q == "" {
      return;
    }
    for i := 0 to |users|
      invariant teachers == TeacherRows(users, me, q, similar, i)
    {
      if users[i].id == me {
        continue;
      }
      var have := users[i].skillsHave;
      for j := 0 to |have|
        invariant teachers == TeacherRows(users, me, q, similar, i) + SkillRows(i, have, j, q, similar)
      {
        if similar(q, Lower(have[j].0)) {
          teachers := teachers + [Row(i, have[j].0, have[j].1)];
        }
      }
    }
  }

  lemma {:induction false} SkillRowsMembers(i: nat, have: SkillTable, m: nat, q: string, similar: Similar)
    requires m <= |have|
    ensures forall r | r in SkillRows(i, have, m, q, similar) ::
              r.user == i && (r.skill, r.credit) in have[..m] && similar(q, Lower(r.skill))
    ensures forall j | 0 <= j < m && similar(q, Lower(have[j].0)) ::
              Row(i, have[j].0, have[j].1) in SkillRows(i, have, m, q, similar)
  {
    if m > 0 {
      SkillRowsMembers(i, have, m - 1, q, similar);
      assert have[..m] == have[..m - 1] + [have[m - 1]];
    }
  }

  /** Every row of the teacher list is a skill of a user other than `me`,
      at that skill's own price, whose lowered name the query matches. */
  lemma {:induction false} TeacherRowsSound(users: seq<User>, me: string, q: string, similar: Similar, n: nat)
    requires n <= |users|
    ensures forall r | r in TeacherRows(users, me, q, similar, n) ::
              && r.user < n && users[r.user].id != me
              && (r.skill, r.credit) in users[r.user].skillsHave
              && similar(q, Lower(r.skill))
  {
    if n > 0 {
      TeacherRowsSound(users, me, q, similar, n - 1);
      var have := users[n - 1].skillsHave;
      if users[n - 1].id != me {
        var tail := SkillRows(n - 1, have, |have|, q, similar);
        SkillRowsMembers(n - 1, have, |have|, q, similar);
        assert have[..|have|] == have;
        forall r | r in tail ensures (r.skill, r.credit) in users[r.user].skillsHave {
          assert r.user == n - 1;
        }
      }
    }
  }

  /** Every skill of a user other than `me` whose lowered name the query
      matches is listed, with its price. */
  lemma {:induction false} TeacherRowsComplete(users: seq<User>, me: string, q: string, similar: Similar, n: nat)
    requires n <= |users|
    ensures forall i, j | 0 <= i < n && 0 <= j < |users[i].skillsHave|
                          && users[i].id != me && similar(q, Lower(users[i].skillsHave[j].0)) ::
              Row(i, users[i].skillsHave[j].0, users[i].skillsHave[j].1) in TeacherRows(users, me, q, similar, n)
  {
    if n > 0 {
      TeacherRowsComplete(users, me, q, similar, n - 1);
      var have := users[n - 1].skillsHave;
      if users[n - 1].id != me {
        SkillRowsMembers(n - 1, have, |have|, q, similar);
      }
    }
  }

  /** The rows of one user follow the order of that user's skill table,
      each skill at most once. */
  lemma {:induction false} SkillRowsOrder(i: nat, have: SkillTable, m: nat, q: string, similar: Similar)
    requires m <= |have|
    requires DistinctKeys(have)
    ensures forall a | 0 <= a < |SkillRows(i, have, m, q, similar)| ::
              && SkillRows(i, have, m, q, similar)[a].user == i
              && SkillRows(i, have, m, q, similar)[a].skill in Keys(have)
              && KeyIndex(have, SkillRows(i, have, m, q, similar)[a].skill) < m
    ensures forall a, b | 0 <= a < b < |SkillRows(i, have, m, q, similar)| ::
              KeyIndex(have, SkillRows(i, have, m, q, similar)[a].skill)
              < KeyIndex(have, SkillRows(i, have, m, q, similar)[b].skill)
  {
    if m > 0 {
      SkillRowsOrder(i, have, m - 1, q, similar);
      var prev := SkillRows(i, have, m - 1, q, similar);
      var rows := SkillRows(i, have, m, q, similar);
      var k := have[m - 1].0;
      assert Keys(have)[m - 1] == k;
      assert KeyIndex(have, k) == m - 1;
      if similar(q, Lower(k)) {
        assert rows == prev + [Row(i, k, have[m - 1].1)];
        forall a | 0 <= a < |rows|
          ensures rows[a].user == i && rows[a].skill in Keys(have) && KeyIndex(have, rows[a].skill) < m
        {
          if a < |prev| {
            assert rows[a] == prev[a];
          }
        }
        forall a, b | 0 <= a < b < |rows|
          ensures rows[a].skill in Keys(have) && rows[b].skill in Keys(have)
          ensures KeyIndex(have, rows[a].skill) < KeyIndex(have, rows[b].skill)
        {
          assert rows[a] == prev[a];
          if b < |prev| {
            assert rows[b] == prev[b];
          }
        }
      } else {
        assert rows == prev;
      }
    }
  }

  /** Row `x` comes strictly before row `y`: an earlier user, or the same
      user and a skill earlier in that user's skill table. */
  predicate InOrder(users: seq<User>, x: Row, y: Row) {
    || x.user < y.user
    || (&& x.user == y.user < |users|
        && x.skill in Keys(users[x.user].skillsHave)
        && y.skill in Keys(users[x.user].skillsHave)
        && KeyIndex(users[x.user].skillsHave, x.skill) < KeyIndex(users[x.user].skillsHave, y.skill))
  }

  /** Every row of the teacher list after `n` users belongs to one of them. */
  lemma {:induction false} TeacherRowsUsers(users: seq<User>, me: string, q: string, similar: Similar, n: nat)
    requires n <= |users|
    ensures forall a | 0 <= a < |TeacherRows(users, me, q, similar, n)| ::
              TeacherRows(users, me, q, similar, n)[a].user < n
  {
    if n > 0 {
      TeacherRowsUsers(users, me, q, similar, n - 1);
      var have := users[n - 1].skillsHave;
      SkillRowsMembers(n - 1, have, |have|, q, similar);
    }
  }

  /** Appending the rows of a later user to an ordered list of rows of
      earlier users keeps it ordered. */
  lemma AppendInOrder(users: seq<User>, prev: seq<Row>, tail: seq<Row>, u: nat)
    requires forall a | 0 <= a < |prev| :: prev[a].user < u
    requires forall a | 0 <= a < |tail| :: tail[a].user == u
    requires forall a, b | 0 <= a < b < |prev| :: InOrder(users, prev[a], prev[b])
    requires forall a, b | 0 <= a < b < |tail| :: InOrder(users, tail[a], tail[b])
    ensures forall a, b | 0 <= a < b < |prev + tail| :: InOrder(users, (prev + tail)[a], (prev + tail)[b])
  {
    var rows := prev + tail;
    forall a, b | 0 <= a < b < |rows|
      ensures InOrder(users, rows[a], rows[b])
    {
      if b < |prev| {
        assert rows[a] == prev[a] && rows[b] == prev[b];
      } else if a < |prev| {
        assert rows[a] == prev[a] && rows[b] == tail[b - |prev|];
      } else {
        assert rows[a] == tail[a - |prev|] && rows[b] == tail[b - |prev|];
      }
    }
  }

  /** The teacher list is in directory order, and within one user in the
      order of that user's skill table; in particular no (user, skill) pair
      is listed twice. */
  lemma {:induction false} TeacherRowsOrder(users: seq<User>, me: string, q: string, similar: Similar, n: nat)
    requires n <= |users|
    requires AllWellFormed(users)
    ensures forall a, b | 0 <= a < b < |TeacherRows(users, me, q, similar, n)| ::
              InOrder(users, TeacherRows(users, me, q, similar, n)[a], TeacherRows(users, me, q, similar, n)[b])
  {
    if n > 0 {
      TeacherRowsOrder(users, me, q, similar, n - 1);
      TeacherRowsUsers(users, me, q, similar, n - 1);
      var prev := TeacherRows(users, me, q, similar, n - 1);
      var have := users[n - 1].skillsHave;
      if users[n - 1].id != me {
        var tail := SkillRows(n - 1, have, |have|, q, similar);
        SkillRowsOrder(n - 1, have, |have|, q, similar);
        assert forall a, b | 0 <= a < b < |tail| :: InOrder(users, tail[a], tail[b]);
        AppendInOrder(users, prev, tail, n - 1);
      }
    }
  }

  // ---------------- Learners ----------------

  /** Some skill `u` wants to learn matches the query once lowered. */
  predicate Wants(u: User, q: string, similar: Similar) {
    exists s | s in u.skillsWant :: similar(q, Lower(s))
  }

  /** The "find learners" search: every user other than `me` that wants a
      matching skill, in directory order and once each, however many of its
      wanted skills match; nothing for an empty query. */
  method FindLearners(users: seq<User>, me: string, q: string, similar: Similar) returns (learners: seq<nat>)
    ensures Increasing(learners)
    ensures forall k | 0 <= k < |learners| :: learners[k] < |users|
    ensures forall i | 0 <= i < |users| ::
              i in learners <==> q != "" && users[i].id != me && Wants(users[i], q, similar)
  {
    learners := [];
    if q == "" {
      return;
    }
    for i := 0 to |users|
      invariant Increasing(learners)
      invariant forall k | 0 <= k < |learners| :: learners[k] < i
      invariant forall j | 0 <= j < i :: j in learners <==> users[j].id != me && Wants(users[j], q, similar)
    {
      if users[i].id == me {
        continue;
      }
      if Wants(users[i], q, similar) {
        learners := learners + [i];
      }
    }
  }

  // ---------------- Double coincidence ----------------

  /** Some skill `u` can teach matches the query once lowered. */
  predicate Teaches(u: User, q: string, similar: Similar) {
    exists k | k in Keys(u.skillsHave) :: similar(q, Lower(k))
  }

  /** `u` qualifies for the double-coincidence list: it is not `me`, and
      with both queries non-empty it teaches something matching `learnQ` and,
      not necessarily the same skill, wants something matching `teachQ`. */
  predicate Partner(u: User, me: string, learnQ: string, teachQ: string, similar: Similar) {
    && learnQ != "" && teachQ != "" && u.id != me
    && Teaches(u, learnQ, similar) && Wants(u, teachQ, similar)
  }

  /** The double-coincidence search: every qualifying user, in directory
      order and once each; `found` tells whether anyone was listed. */
  method FindDoubleCoincidences(users: seq<User>, me: string, learnQ: string, teachQ: string, similar: Similar)
    returns (found: bool, partners: seq<nat>)
    ensures found <==> partners != []
    ensures Increasing(partners)
    ensures forall k | 0 <= k < |partners| :: partners[k] < |users|
    ensures forall i | 0 <= i < |users| :: i in partners <==> Partner(users[i], me, learnQ, teachQ, similar)
  {
    found, partners := false, [];
    for i := 0 to |users|
      invariant found <==> partners != []
      invariant Increasing(partners)
      invariant forall k | 0 <= k < |partners| :: partners[k] < i
      invariant forall j | 0 <= j < i :: j in partners <==> Partner(users[j], me, learnQ, teachQ, similar)
    {
      if users[i].id == me {
        continue;
      }
      if learnQ != "" && teachQ != "" {
        if Teaches(users[i], learnQ, similar) && Wants(users[i], teachQ, similar) {
          partners := partners + [i];
          found := true;
        }
      }
    }
  }
}

=== FILE: records.dfy ===
/** The user records of the directory and the one dictionary operation the
    app performs on them: building `skills_have` from the registration form. */
module Records {

  /** A Python dict from skill name to credit price. Python dicts keep their
      keys in insertion order and the teacher query walks `.items()` in that
      order, so the table is an ordered list of distinct keys. */
  type SkillTable = seq<(string, int)>

  datatype User = User(
    id: string,
    password: string,
    name: string,
    skillsHave: SkillTable,
    skillsWant: seq<string>,
    credits: int,
    about: string,
    degree: string,
    contact: seq<string>,
    upvotes: nat)

  /** The credit balance every newly registered user starts with. */
  const StartingCredits := 100

  function Keys(d: SkillTable): (ks: seq<string>)
    ensures |ks| == |d|
    ensures forall i | 0 <= i < |d| :: ks[i] == d[i].0
  {
    if d == [] then [] else [d[0].0] + Keys(d[1..])
  }

  /** No key occurs twice: what every Python dict guarantees. */
  predicate DistinctKeys(d: SkillTable) {
    forall i, j | 0 <= i < j < |d| :: d[i].0 != d[j].0
  }

  /** The position of key `k` in the table. */
  function KeyIndex(d: SkillTable, k: string): (i: nat)
    requires k in Keys(d)
    ensures i < |d| && d[i].0 == k
    ensures forall j | 0 <= j < i :: d[j].0 != k
  {
    if d[0].0 == k then 0 else KeyIndex(d[1..], k) + 1
  }

  /** `d[k] = v`: an existing key keeps its place and takes the new value,
      a new key goes at the end. */
  function Put(d: SkillTable, k: string, v: int): (r: SkillTable)
    requires DistinctKeys(d)
    ensures DistinctKeys(r)
    ensures Keys(r) == if k in Keys(d) then Keys(d) else Keys(d) + [k]
    ensures forall i | 0 <= i < |r| :: r[i].1 == if r[i].0 == k then v else d[i].1
  {
    if k in Keys(d) then
      var i := KeyIndex(d, k);
      var r := d[i := (k, v)];
      assert Keys(r) == Keys(d);
      r
    else
      var r := d + [(k, v)];
      assert Keys(r) == Keys(d) + [k];
      r
  }

  /** The keys of `s` in order of first occurrence, each once. */
  function FirstOccurrences(s: seq<string>): (r: seq<string>)
    ensures forall x :: x in r <==> x in s
    ensures forall i, j | 0 <= i < j < |r| :: r[i] != r[j]
  {
    if s == [] then []
    else
      var prev := FirstOccurrences(s[..|s| - 1]);
      var x := s[|s| - 1];
      assert s == s[..|s| - 1] + [x];
      if x in s[..|s| - 1] then prev else prev + [x]
  }

  /** `{skill: credit for skill, credit in zip(skills, credits)}`: the keys
      are the skills in order of first occurrence, each once. */
  function FromPairs(skills: seq<string>, credits: seq<int>): (d: SkillTable)
    requires |skills| == |credits|
    ensures DistinctKeys(d)
    ensures Keys(d) == FirstOccurrences(skills)
  {
    if skills == [] then []
    else
      var n := |skills| - 1;
      assert skills[..n] + [skills[n]] == skills;
      Put(FromPairs(skills[..n], credits[..n]), skills[n], credits[n])
  }

  /** In the dict comprehension a skill named more than once is priced by
      its last occurrence: the pair at that position is in the table. */
  lemma {:induction false} FromPairsLastWins(skills: seq<string>, credits: seq<int>, i: nat)
    requires |skills| == |credits|
    requires i < |skills|
    requires forall j | i < j < |skills| :: skills[j] != skills[i]
    ensures (skills[i], credits[i]) in FromPairs(skills, credits)
  {
    var n := |skills| - 1;
    var prev := FromPairs(skills[..n], credits[..n]);
    assert skills[..n] + [skills[n]] == skills;
    assert FromPairs(skills, credits) == Put(prev, skills[n], credits[n]);
    if i == n {
      PutHas(prev, skills[n], credits[n]);
    } else {
      assert skills[..n][i] == skills[i] && credits[..n][i] == credits[i];
      FromPairsLastWins(skills[..n], credits[..n], i);
      PutKeeps(prev, skills[n], credits[n], (skills[i], credits[i]));
    }
  }

  /** After `d[k] = v` the table holds the pair `(k, v)`. */
  lemma PutHas(d: SkillTable, k: string, v: int)
    requires DistinctKeys(d)
    ensures (k, v) in Put(d, k, v)
  {
    var r := Put(d, k, v);
    assert k in Keys(r);
    assert r[KeyIndex(r, k)] == (k, v);
  }

  /** `d[k] = v` keeps every pair whose key is not `k`. */
  lemma PutKeeps(d: SkillTable, k: string, v: int, p: (string, int))
    requires DistinctKeys(d)
    requires p in d && p.0 != k
    ensures p in Put(d, k, v)
  {
    var r := Put(d, k, v);
    var j :| 0 <= j < |d| && d[j] == p;
    assert Keys(d)[j] == p.0;
    assert r[j].0 == p.0;
  }

  /** A record as the app can hold it: a dict's keys are distinct. */
  predicate WellFormed(u: User) {
    DistinctKeys(u.skillsHave)
  }

  /** Every record of the directory is well formed. */
  predicate AllWellFormed(users: seq<User>) {
    forall i | 0 <= i < |users| :: WellFormed(users[i])
  }

  /** No two records share an id. */
  predicate DistinctIds(users: seq<User>) {
    forall i, j | 0 <= i < j < |users| :: users[i].id != users[j].id
  }
}

=== FILE: session.dfy ===
/** One interactive session: its own copy of the directory, the vote ledger,
    the logged-in user and the two-step page flow (login, then search). */
module App {
  import opened Wrappers
  import opened Text
  import opened Records
  import Ledger
  import opened Directory
  import opened Matching

  /** `st.session_state.step`. */
  datatype Step = LoginStep | SearchStep

  class Session {
    var users: seq<User>
    var votes: Ledger.Votes
    /** `current_user`, as the position of that record in `users`. */
    var current: Option<nat>
    var step: Step

    /** The ledger invariant holds, every record is well formed, and a user is
        logged in exactly when the page has moved on to the search step. */
    ghost predicate Valid()
      reads this
    {
      && Ledger.Consistent(Ledger.Board(users, votes))
      && AllWellFormed(users)
      && (step == LoginStep <==> current == None)
      && (current.Some? ==> current.value < |users|)
    }

    /** A new session over the seed directory: counters at zero, no votes,
        nobody logged in, the login page showing. */
    constructor (seed: seq<User>)
      requires DistinctIds(seed)
      requires forall i | 0 <= i < |seed| :: seed[i].upvotes == 0 && WellFormed(seed[i])
      ensures Valid()
      ensures users == seed && votes == map[] && current == None && step == LoginStep
    {
      users, votes, current, step := seed, map[], None, LoginStep;
      Ledger.FreshBoardConsistent(seed);
    }

    /** The login form: strip both inputs and log in as the first record with
        exactly that id and password; otherwise stay on the login page. */
    method Login(id: string, password: string) returns (ok: bool)
      requires Valid() && step == LoginStep
      modifies this
      ensures Valid()
      ensures users == old(users) && votes == old(votes)
      ensures ok <==> FindLogin(users, Strip(id), Strip(password)).Some?
      ensures ok ==> current == FindLogin(users, Strip(id), Strip(password)) && step == SearchStep
      ensures !ok ==> current == old(current) && step == old(step)
    {
      ok := SignIn(Strip(id), Strip(password));
    }

    /** The lookup of the login form on already stripped credentials. */
    method SignIn(id: string, password: string) returns (ok: bool)
      requires Valid() && step == LoginStep
      modifies this
      ensures Valid()
      ensures users == old(users) && votes == old(votes)
      ensures ok <==> FindLogin(users, id, password).Some?
      ensures ok ==> current == FindLogin(users, id, password) && step == SearchStep
      ensures !ok ==> current == old(current) && step == old(step)
    {
      var found := FindLogin(users, id, password);
      ok := found.Some?;
      if ok {
        current, step := found, SearchStep;
      }
    }

    /** The register form: on a taken id or a skills/credits count mismatch
        nothing changes; otherwise exactly one record is appended after the
        existing ones, unchanged, and the new user is logged in. */
    method Register(f: Form) returns (r: Result<nat, RegisterError>)
      requires Valid() && step == LoginStep
      modifies this
      ensures Valid()
      ensures votes == old(votes)
      ensures NewUser(old(users), f).Err? ==>
                && r == Err(NewUser(old(users), f).error)
                && users == old(users) && current == old(current) && step == old(step)
      ensures NewUser(old(users), f).Ok? ==>
                && r == Ok(|old(users)|)
                && users == old(users) + [NewUser(old(users), f).value]
                && current == Some(|old(users)|) && step == SearchStep
    {
      var made := NewUser(users, f);
      if made.Err? {
        r := Err(made.error);
        return;
      }
      Enter(made.value);
      r := Ok(|users| - 1);
    }

    /** The success path of the register form: `users.append(new_user)`,
        then log the new user in and move to the search step. */
    method Enter(u: User)
      requires Valid() && step == LoginStep
      requires !Ledger.IsId(users, u.id) && u.upvotes == 0 && WellFormed(u)
      modifies this
      ensures Valid()
      ensures users == old(users) + [u] && votes == old(votes)
      ensures current == Some(|old(users)|) && step == SearchStep
    {
      RegisterKeepsConsistent(Ledger.Board(users, votes), u);
      users := users + [u];
      current := Some(|users| - 1);
      step := SearchStep;
    }

    /** The logged-in user's id: whom the searches skip and who votes. */
    function Me(): string
      reads this
      requires Valid() && step == SearchStep
    {
      users[current.value].id
    }

    /** The teacher search box: the text is stripped and lowered, and the
        rows are those of the directory's other users' matching skills. */
    method SearchTeachers(text: string, similar: Similar) returns (teachers: seq<Row>)
      requires Valid() && step == SearchStep
      ensures Normalize(text) == "" ==> teachers == []
      ensures Normalize(text) != "" ==> teachers == TeacherRows(users, Me(), Normalize(text), similar, |users|)
      ensures forall r | r in teachers :: r.user < |users| && r.user != current.value
    {
      teachers := FindTeachers(users, Me(), Normalize(text), similar);
      TeacherRowsSound(users, Me(), Normalize(text), similar, |users|);
    }

    /** The learner search box: every other user that wants a skill matching
        the stripped, lowered text, in directory order. */
    method SearchLearners(text: string, similar: Similar) returns (learners: seq<nat>)
      requires Valid() && step == SearchStep
      ensures Increasing(learners)
      ensures forall k | 0 <= k < |learners| :: learners[k] < |users|
      ensures forall i | 0 <= i < |users| ::
                i in learners <==> Normalize(text) != "" && i != current.value && Wants(users[i], Normalize(text), similar)
    {
      learners := FindLearners(users, Me(), Normalize(text), similar);
    }

    /** The double-coincidence button, with the two search boxes' texts. */
    method SearchDouble(learnText: string, teachText: string, similar: Similar) returns (found: bool, partners: seq<nat>)
      requires Valid() && step == SearchStep
      ensures found <==> partners != []
      ensures Increasing(partners)
      ensures forall k | 0 <= k < |partners| :: partners[k] < |users|
      ensures forall i | 0 <= i < |users| ::
                i in partners <==> i != current.value && Partner(users[i], Me(), Normalize(learnText), Normalize(teachText), similar)
    {
      found, partners := FindDoubleCoincidences(users, Me(), Normalize(learnText), Normalize(teachText), similar);
    }

    /** `handle_upvote(voter, users[t])`, applied to this session's directory
        and ledger; the page step and the logged-in user stay as they are. */
    method Upvote(voter: string, t: nat) returns (o: Ledger.Outcome)
      requires Valid() && t < |users|
      modifies this
      ensures Valid()
      ensures (Ledger.Board(users, votes), o) == Ledger.Upvote(Ledger.Board(old(users), old(votes)), voter, t)
      ensures current == old(current) && step == old(step)
    {
      var (b, outcome) := Ledger.Upvote(Ledger.Board(users, votes), voter, t);
      Ledger.UpvoteKeepsConsistent(Ledger.Board(users, votes), voter, t);
      users, votes, o := b.users, b.votes, outcome;
    }
  }
}

=== FILE: text.dfy ===
/** The string handling the app applies to form input: Python's `str.strip()`,
    `str.split(",")`, the "split, strip, drop empty pieces" comma lists of the
    registration form, and `str.lower()` on skill names and queries. */
module Text {

  /** The characters for which Python's `str.isspace()` holds; `strip()`
      removes exactly these from both ends of a string. */
  predicate IsSpace(c: char) {
    || ('\t' <= c <= '\r')              // \t \n \x0b \x0c \r
    || ('\U{1c}' <= c <= '\U{1f}')      // information separators
    || c == ' ' || c == '\U{85}' || c == '\U{a0}' || c == '\U{1680}'
    || ('\U{2000}' <= c <= '\U{200a}')
    || c == '\U{2028}' || c == '\U{2029}' || c == '\U{202f}' || c == '\U{205f}'
    || c == '\U{3000}'
  }

  /** `s[lo..hi]` is all whitespace (true when the range is empty). */
  predicate SpaceBetween(s: string, lo: int, hi: int) {
    forall i | lo <= i < hi && 0 <= i < |s| :: IsSpace(s[i])
  }

  /** A string that `strip()` leaves alone: it neither starts nor ends with whitespace. */
  predicate Stripped(s: string) {
    s == [] || (!IsSpace(s[0]) && !IsSpace(s[|s| - 1]))
  }

  /** Where `s.lstrip()` starts reading from position `i` on: the first
      position at or after `i` that is not whitespace, or `|s|`. */
  function SkipSpace(s: string, i: nat): (k: nat)
    requires i <= |s|
    ensures i <= k <= |s|
    ensures SpaceBetween(s, i, k)
    ensures k == |s| || !IsSpace(s[k])
    decreases |s| - i
  {
    if i < |s| && IsSpace(s[i]) then SkipSpace(s, i + 1) else i
  }

  /** Where `s.rstrip()` ends, looking back from position `j` no further than
      `lo`: the position just after the last non-whitespace character, or `lo`. */
  function SkipSpaceBack(s: string, lo: nat, j: nat): (k: nat)
    requires lo <= j <= |s|
    ensures lo <= k <= j
    ensures SpaceBetween(s, k, j)
    ensures k == lo || !IsSpace(s[k - 1])
  {
    if j > lo && IsSpace(s[j - 1]) then SkipSpaceBack(s, lo, j - 1) else j
  }

  /** How many whitespace characters `strip()` drops from the front of `s`. */
  function LeadingSpace(s: string): (n: nat)
    ensures n <= |s|
  {
    SkipSpace(s, 0)
  }

  /** `s.strip()`: the infix of `s` that starts right after its leading
      whitespace, has only whitespace after it, and neither starts nor ends
      with whitespace; it is empty exactly when `s` is all whitespace. */
  function Strip(s: string): (r: string)
    ensures LeadingSpace(s) + |r| <= |s|
    ensures r == s[LeadingSpace(s)..LeadingSpace(s) + |r|]
    ensures SpaceBetween(s, 0, LeadingSpace(s))
    ensures SpaceBetween(s, LeadingSpace(s) + |r|, |s|)
    ensures Stripped(r)
    ensures r == [] <==> SpaceBetween(s, 0, |s|)
  {
    var lo := SkipSpace(s, 0);
    var hi := SkipSpaceBack(s, lo, |s|);
    assert hi > lo ==> !IsSpace(s[lo]);
    s[lo..hi]
  }

  lemma {:induction false} StripStripped(s: string)
    requires Stripped(s)
    ensures Strip(s) == s
  {
    if s != [] {
      assert SkipSpace(s, 0) == 0;
      assert SkipSpaceBack(s, 0, |s|) == |s|;
    }
  }

  /** `s.split(sep)`: the pieces between occurrences of `sep`; there is always
      at least one piece, and "" splits into [""]. */
  function Split(s: string, sep: char): (parts: seq<string>)
    ensures |parts| >= 1
    ensures forall k | 0 <= k < |parts| :: sep !in parts[k]
    ensures Join(parts, sep) == s
  {
    if s == [] then [""]
    else
      var rest := Split(s[1..], sep);
      if s[0] == sep then [""] + rest
      else
        assert Join(rest, sep) == s[1..];
        [[s[0]] + rest[0]] + rest[1..]
  }

  /** `sep.join(parts)`. */
  function Join(parts: seq<string>, sep: char): string
  {
    if parts == [] then ""
    else if |parts| == 1 then parts[0]
    else parts[0] + [sep] + Join(parts[1..], sep)
  }

  /** Splitting undoes joining whenever no piece contains the separator. */
  lemma {:induction false} SplitJoin(parts: seq<string>, sep: char)
    requires |parts| >= 1
    requires forall k | 0 <= k < |parts| :: sep !in parts[k]
    ensures Split(Join(parts, sep), sep) == parts
  {
    if |parts| == 1 {
      SplitNoSep(parts[0], sep);
    } else {
      SplitJoin(parts[1..], sep);
      SplitPrefix(parts[0], Join(parts[1..], sep), sep);
      assert parts == [parts[0]] + parts[1..];
    }
  }

  lemma {:induction false} SplitNoSep(s: string, sep: char)
    requires sep !in s
    ensures Split(s, sep) == [s]
  {
    if s != [] {
      SplitNoSep(s[1..], sep);
    }
  }

  /** Splitting `w + [sep] + rest` with `w` free of `sep` yields `w` first. */
  lemma {:induction false} SplitPrefix(w: string, rest: string, sep: char)
    requires sep !in w
    ensures Split(w + [sep] + rest, sep) == [w] + Split(rest, sep)
  {
    var s := w + [sep] + rest;
    if w == [] {
      assert s[1..] == rest;
    } else {
      assert s[1..] == w[1..] + [sep] + rest;
      SplitPrefix(w[1..], rest, sep);
      assert [w[0]] + w[1..] == w;
    }
  }

  /** `[p.strip() for p in parts if p.strip()]`. */
  function StripNonEmpty(parts: seq<string>): (r: seq<string>)
    ensures |r| <= |parts|
    ensures forall k | 0 <= k < |r| :: r[k] != "" && Stripped(r[k])
  {
    if parts == [] then []
    else
      var rest := StripNonEmpty(parts[1..]);
      var p := Strip(parts[0]);
      if p == "" then rest else [p] + rest
  }

  /** The comma-separated field parser of the registration form:
      `[s.strip() for s in text.split(",") if s.strip()]`. */
  function CommaList(text: string): (items: seq<string>)
    ensures forall k | 0 <= k < |items| :: items[k] != "" && Stripped(items[k]) && ',' !in items[k]
  {
    var parts := Split(text, ',');
    var items := StripNonEmpty(parts);
    StripNonEmptyKeepsOut(parts, ',');
    items
  }

  lemma {:induction false} StripNonEmptyKeepsOut(parts: seq<string>, c: char)
    requires forall k | 0 <= k < |parts| :: c !in parts[k]
    ensures forall k | 0 <= k < |StripNonEmpty(parts)| :: c !in StripNonEmpty(parts)[k]
  {
    if parts != [] {
      StripNonEmptyKeepsOut(parts[1..], c);
      var rest := StripNonEmpty(parts[1..]);
      if Strip(parts[0]) != "" {
        assert StripNonEmpty(parts) == [Strip(parts[0])] + rest;
      }
    }
  }

  /** Comma lists round-trip: joining any list of non-empty, already
      stripped, comma-free items with "," and parsing the text back gives
      the same items; in particular an empty field parses to no items. */
  lemma {:induction false} CommaListJoin(items: seq<string>)
    requires forall k | 0 <= k < |items| :: items[k] != "" && Stripped(items[k]) && ',' !in items[k]
    ensures CommaList(Join(items, ',')) == items
  {
    if items == [] {
      assert Split("", ',') == [""];
      assert Strip("") == "";
    } else {
      SplitJoin(items, ',');
      StripNonEmptyClean(items);
    }
  }

  lemma {:induction false} StripNonEmptyClean(items: seq<string>)
    requires forall k | 0 <= k < |items| :: items[k] != "" && Stripped(items[k])
    ensures StripNonEmpty(items) == items
  {
    if items != [] {
      StripStripped(items[0]);
      StripNonEmptyClean(items[1..]);
      assert [items[0]] + items[1..] == items;
    }
  }

  /** `c.lower()` on ASCII letters; other characters are kept. */
  function LowerChar(c: char): (r: char)
    ensures 'A' <= c <= 'Z' ==> 'a' <= r <= 'z' && r as int == c as int + 32
    ensures !('A' <= c <= 'Z') ==> r == c
  {
    if 'A' <= c <= 'Z' then (c as int + 32) as char else c
  }

  /** `s.lower()`: lowers every ASCII capital, leaves everything else. */
  function Lower(s: string): (r: string)
    ensures |r| == |s|
    ensures forall i | 0 <= i < |r| :: r[i] == LowerChar(s[i]) && !('A' <= r[i] <= 'Z')
  {
    if s == [] then [] else [LowerChar(s[0])] + Lower(s[1..])
  }

  /** How a search box's text becomes a query: `text.strip().lower()`. */
  function Normalize(text: string): (q: string)
    ensures forall i | 0 <= i < |q| :: !('A' <= q[i] <= 'Z')
    ensures q == "" <==> SpaceBetween(text, 0, |text|)
  {
    Lower(Strip(text))
  }
}

=== FILE: wrappers.dfy ===
/** Optional values and error-carrying results, used for lookups that may
    find nothing and for operations that report a user-facing error. */
module Wrappers {

  datatype Option<+T> = None | Some(value: T)

  datatype Result<+R, +E> = Ok(value: R) | Err(error: E)
}
